=== FILE: README.md ===
# lwtftp session engine in Dafny

This project models the per-client session engine of `tftpd.c`, a single-file
TFTP daemon. TFTP is the protocol of RFC 1350: packet layouts in section 5,
and end of transfer signalled by a short DATA block in section 6. The daemon
keeps a linked list of client records (`tftpd_state_t`). Each iteration of its
main loop does three things:

1. It dispatches at most one received datagram to the sender's record,
   creating the record first if needed.
2. It gives every record an outbound turn, which may advance the block or
   send or resend a DATA block.
3. It removes the records that finished or failed.

The filesystem, the clock and the socket are inputs to the model, not effects.
So the engine is a set of pure functions over an immutable `Session` record
and a `seq<Session>`.

- `Optional`: the `Option` type.
- `Bytes`: octets, `uint16_t` values with wrap-around, big-endian fields, C
  strings and C-locale case folding.
- `Wire`: the ACK, ERROR and DATA encodings and the opcode and ACK reads.
  It also holds the peer's reading of each format, so that round trips can
  be stated.
- `Sessions`: the session record and datagrams. Also the daemon options
  (`Config`) and the filesystem as an oracle (`Fs`): `stat` of a path,
  `open` of a path with a flag, and `read` of at most 512 bytes at an offset.
- `Request`: parsing of RRQ and WRQ, the mode check, the `stat` error
  mapping, the permission test and the handshake.
- `Inbound`: the opcode switch.
- `Outbound`: the retry-gated tick.
- `Registry`: lookup and creation, and the reap, both as intended and as
  written.
- `Engine`: one loop iteration, `Step`, with the properties that involve
  several operations.

Time is an integer number of milliseconds, and the retry period is 500.

Some behaviour of the code differs from what the protocol suggests. The model
follows the code:

- Received DATA packets are ignored, so no write transfer ever happens.
  A WRQ is opened `O_WRONLY` without `O_CREAT`.
- A session is removed only when it is done and acknowledged, or errored.
  There is no inactivity timeout.
- An unsupported mode marks the session errored but sends no ERROR packet.
- A repeated handshake increments `block`; it does not reset it.
- The record does not store the transfer direction, so the tick runs for
  every session, including ones that never completed a handshake. Such a
  session reads descriptor 0 (left by `calloc`) or -1 (left by a failed
  `open`); see "## Left out" for what the code does with those reads.
- Sessions are keyed by IPv4 address alone (`Registry.LookupIgnoresPort`).
  Handshake replies go to the sender's current port. DATA goes to the
  port recorded when the session was created.
- A zero-byte read marks the session done without sending anything. So a
  file whose size is a multiple of 512 ends on a full block, and no short
  final block is ever sent (`Outbound.NeverEmptyData`).
- For an empty file, no DATA is ever sent. The session is done but not
  acknowledged, so it is not reaped: without a new datagram from that host
  it stays in the list for good (`Engine.EmptyFileLingers`). A later RRQ from that host moves the block
  on to 2, and the first DATA it gets is block 2
  (`Engine.RehandshakeSkipsBlockOne`).
- A WRQ for a missing path still runs the permission test. The test reads
  the `st_mode` of a `struct stat` that `stat` never filled in; the model
  takes that value as an input (`NotFound(stale)`).

## Model

| member | source | states |
|---|---|---|
| `Sessions.Fresh` | tftpd.c:149-155 | the record a new sender gets: its endpoint, an empty path, descriptor 0, block 0, and every flag cleared |
| `Sessions.Reapable` | tftpd.c:309 | the cleanup condition: done and acknowledged, or errored |
| `Bytes.Inc16` | tftpd.c:241 | `block++` on a `uint16_t`: one more, except that 65535 wraps to 0 |
| `Bytes.UntilNul` | tftpd.c:171-172 | the copied field is a prefix of the input with no NUL, ended by a NUL or by the end of the input |
| `Wire.Opcode` | tftpd.c:142 | the opcode is the first two bytes read in network byte order |
| `Wire.AckBlock` | tftpd.c:250-251 | an ACK's block is bytes 2 and 3 read in network byte order |
| `Wire.EncodeAck` | tftpd.c:348-350 | an ACK is exactly the four bytes 0, 4, block/256, block%256 |
| `Wire.AckRoundTrip` | tftpd.c:250-251 | reading the opcode and block of an encoded ACK with `ntohs` gives back 4 and the block |
| `Wire.EncodeError` | tftpd.c:330-344 | an ERROR packet is the header 0, 5, code/256, code%256, then the message, then one NUL: 4 + length + 1 bytes, for a message shorter than 4092 bytes |
| `Wire.ErrorRoundTrip` | tftpd.c:340-344 | a peer that reads an ERROR packet gets back exactly the code and message that were sent |
| `Wire.EncodeData` | tftpd.c:278-298 | a DATA packet is the header 0, 3, block/256, block%256, then the bytes read: 4 + the read count bytes |
| `Wire.DataRoundTrip` | tftpd.c:280-298 | a DATA packet reads back as opcode 3, its block and its payload, and it is shorter than 516 bytes exactly when the payload is short |
| `Request.FileName` | tftpd.c:169-172 | the filename is the bytes after the opcode up to the first NUL |
| `Request.ModeField` | tftpd.c:174-177 | the copied mode has at most 32 bytes and no NUL |
| `Request.ParseEncodedRequest` | tftpd.c:169-177 | a request written as in RFC 1350 stays within the datagram's bounds, whatever follows its mode (such as RFC 2347 options). Parsing gives back its opcode, its filename and its mode cut to 32 bytes |
| `Request.ModeSupported` | tftpd.c:179-180 | a mode is accepted when, with ASCII letters folded to lower case, it equals "netascii" or "octet" |
| `Request.ModeSupportedIffSpelled` | tftpd.c:179-186 | a mode is accepted exactly when it spells "netascii" or "octet" letter by letter, each letter in either case |
| `Request.Permitted` | tftpd.c:219-221 | access is allowed when the read bit of the class checked is set, or its write bit on a WRQ. The class is the owner under `-u` and the others otherwise |
| `Request.PermittedByDigit` | tftpd.c:219-221 | an RRQ passes exactly when the octal digit of the class checked has the read bit (at least 4); a WRQ passes exactly when it has the read bit or the write bit (at least 2). The class is the owner's under `-u` and the others' otherwise |
| `Request.Admit` | tftpd.c:219-238 | after the `stat` checks: a failed permission test refuses with error 2 "Access denied", a failed `open` is an open error with the system's reason, and otherwise the request is admitted with the new descriptor |
| `Request.Decide` | tftpd.c:179-238 | the verdict is "unsupported mode" exactly when the mode check fails, and "admitted" exactly when the flat admission condition holds. A failed `stat` gives error 2, a missing file on RRQ error 1, and an existing file on WRQ error 6. Any refusal carries code 1, 2 or 6 |
| `Request.DecideAfterStat` | tftpd.c:219-238 | when the `stat` outcome fits the opcode (an existing file for RRQ, a missing one for WRQ), a failed permission test is refused with error 2 "Access denied". A passed test whose `open` fails ends in an open error carrying the system's reason |
| `Request.FailedHandshakeReplies` | tftpd.c:193-236 | a refusal sends ERROR with its code and text and sets only `errored`. A failed `open` sends ERROR 1 with the reason, records the path, sets the descriptor to -1 and sets `errored` |
| `Request.Apply` | tftpd.c:193-241 | nothing is sent exactly for an unsupported mode. An admitted request sends ACK 0, moves `block` on by one with wrap-around, and records the path and descriptor, leaving `errored` alone. Every other verdict sets `errored` and keeps `block`, and an open error records the path with descriptor -1. At most one reply goes out, always to the sender, and `acked`, `done` and `lastSent` are kept |
| `Request.OnRequest` | tftpd.c:159-245 | a request under 4 bytes changes nothing. An unsupported mode sets `errored` and sends nothing. ACK 0 is sent exactly when the request is admitted, and then `block` becomes `block+1 mod 65536` and `errored` is untouched. Otherwise `errored` is set and `block` is unchanged. At most one reply goes out, always to the sender |
| `Request.RequestRepliesDecode` | tftpd.c:193-240 | every reply is either ACK 0 on the success path, or an ERROR that a peer reads as code 1, 2 or 6 with the session errored. The two never both happen |
| `Inbound.Dispatch` | tftpd.c:157-265 | a matching ACK sets `acked`, a mismatched one sets `errored`, and no ACK changes `block`. DATA and ERROR change nothing. Any other opcode outside 1..5 sets `errored`. RRQ and WRQ go to the handshake |
| `Outbound.Offset` | tftpd.c:285 | the file offset of a block is (block-1)*512 in `int`, so block 0 gives -512 |
| `Outbound.TickOne` | tftpd.c:269-305 | an acked session's block advances with wrap-around. Otherwise a session inside the 500 ms retry period is untouched. A zero-byte read sets `done` and sends nothing. Any other read sends DATA with that block and the bytes read at offset (block-1)*512, stamps `now` and clears `acked`. A session left acked is always reapable |
| `Outbound.TickAll` | tftpd.c:269-305 | every session takes its turn and the list keeps its length. Every datagram that a session's own turn sends is among those sent. For read results of 0 to 512 bytes, every datagram sent is a DATA packet with at least one payload byte, addressed to a listed session |
| `Outbound.TickAllAppendSends` | tftpd.c:269-305 | the datagrams go out session by session in list order: ticking a list followed by another sends the first list's datagrams, then the second's |
| `Outbound.TickAllAppendSessions` | tftpd.c:269-305 | ticking a list followed by another gives the two ticked lists in the same order |
| `Outbound.TickAllSingleton` | tftpd.c:269-305 | the tick of a one-session list is that session's own turn |
| `Outbound.NoDoubleAdvance` | tftpd.c:271-304 | a session that survives the reap after a tick does not advance again on the next tick without a new ACK |
| `Outbound.NeverEmptyData` | tftpd.c:292-298 | for read results of 0 to 512 bytes, every DATA packet carries 1 to 512 bytes and the session's current block number |
| `Registry.FindHost` | tftpd.c:146-147 | returns the first position whose IPv4 address matches, or nothing exactly when no session has that address |
| `Registry.Lookup` | tftpd.c:146-155 | returns the first session with the sender's address. A zeroed session is prepended only when none matches. At most one session per address is preserved |
| `Registry.LookupIgnoresPort` | tftpd.c:147 | two senders on the same host with different ports reach the same session |
| `Registry.Reap` | tftpd.c:308-324 | the intended cleanup: the list filtered down to the sessions that are not reapable, in order; never longer than the input. Its properties are the lemmas below |
| `Registry.Reaped` | tftpd.c:308-318 | the sessions the cleanup closes, in order; never more than the input |
| `Registry.ReapMembers` | tftpd.c:308-324 | the survivors are exactly the sessions that are neither done-and-acked nor errored, and the closed sessions are exactly the others |
| `Registry.ReapAppend` | tftpd.c:308-324 | the reap distributes over concatenation, so the survivors keep their original order |
| `Registry.ReapedAppend` | tftpd.c:309-318 | the closed sessions likewise keep their original order |
| `Registry.ReapPartitions` | tftpd.c:309-318 | every session is either kept or closed; none is lost or duplicated |
| `Registry.ReapKeepsUniqueHosts` | tftpd.c:312-313 | removing sessions keeps at most one session per address |
| `Registry.ReapAsWritten` | tftpd.c:308-324 | the loop as written closes exactly the reapable sessions. The list it leaves is empty when the head was removed, and the intended survivors otherwise |
| `Registry.HeadRemovalLosesSurvivors` | tftpd.c:314-315 | when the head is reapable, any live session is among the intended survivors, so the intended list is not empty. `Registry.ReapAsWritten` leaves `[]` in that case, so the session is lost |
| `Engine.Receive` | tftpd.c:140-266 | a known sender's datagram is dispatched to the first session with its address, which is replaced by the result in place. A new sender's datagram is dispatched to a zeroed session, which is prepended. Sessions of other addresses are kept as they were, and every reply goes to the sender |
| `Engine.Step` | tftpd.c:137-325 | one iteration splits the received-then-ticked list into the survivors and the closed sessions, losing none and keeping the list order in both. Only live sessions survive and only reapable ones are closed. At most one session per address is kept. The datagrams sent are the receive replies, then the tick's DATA |
| `Engine.Isolation` | tftpd.c:146-155 | a datagram from one host leaves every other host's session exactly as an iteration without input would |
| `Engine.FailedNewHostHeadsList` | tftpd.c:146-155 | when a new host's first datagram fails its session, the ticked list starts with that reapable session. This is the case in which the cleanup loop as written drops the whole list |
| `Engine.EmptyFileLingers` | tftpd.c:269-296 | a zero-byte first read sends nothing and leaves the session done but not acked, so not reapable. Every later tick leaves it unchanged |
| `Engine.RehandshakeSkipsBlockOne` | tftpd.c:240-298 | an admitted RRQ on a session at block 1 moves it to block 2, and the next DATA sent is block 2, read at offset 512 |
| `Engine.DuplicateAckIsFatal` | tftpd.c:248-304 | a matching ACK lets the next tick advance the block once. Repeating that ACK afterwards errors the session instead of advancing it again |
| `Engine.ReadRequestStartsTransfer` | tftpd.c:159-305 | an admitted RRQ from a new host sends ACK 0 and then DATA block 1, read at offset 0, in the same iteration. The new session heads the list with block 1, waiting for ACK 1 |

## Findings

| source | as written | input that shows it | evidently intended | confidence | as-written member | corrected member |
|---|---|---|---|---|---|---|
| tftpd.c:314-315 | removing the head session sets `clients = NULL`, which unlinks every later session | list [errored session A, live session B]: after the pass the list is empty, and B is neither kept nor closed (its descriptor leaks). New hosts' sessions are prepended, so it happens whenever a new host's first datagram fails its session (`Engine.FailedNewHostHeadsList`), or whenever the newest session finishes: every other transfer is then lost | relink past the head as `prev->next` does for inner sessions, so the list becomes [B] | high, not executed | `Registry.ReapAsWritten` (with `Registry.HeadRemovalLosesSurvivors`) | `Registry.Reap` |

`Engine.Step` uses the corrected `Registry.Reap`.

## Left out

- Sockets (tftpd.c:106-126, 140, 299-301, 344-345, 351-353): the socket calls and send failures are not modelled. Received datagrams are inputs, and sent ones are returned as a list of `Datagram`s. The zero `SO_RCVTIMEO` (tftpd.c:123-125) means "no timeout", not "non-blocking", so `recvfrom` blocks. An iteration runs only when a datagram arrives or `recvfrom` fails; `Step` with no datagram stands for the failed `recvfrom`. The 500 ms retry in `Outbound.TickOne` is therefore checked only when some host sends something; it is not a timer.
- Short datagrams: the code reads the opcode from datagrams under 2 bytes and the ACK block from datagrams under 4 bytes, so it reads stale buffer contents. The model does not cover these reads; `Inbound.Bounded` requires the bytes to be present.
- Filenames that do not fit: the code overflows `fileName` when a filename has 4096 bytes or more, and over-reads past the datagram when a filename or mode is not terminated inside it. `Request.RequestInBounds` excludes these inputs. Inside those bounds, the code's `rem` countdown never stops a loop.
- Filesystem calls (`stat`, `open`, `lseek`, `read`): their outcomes come from the `Fs` oracle. The file contents are not modelled beyond a read of at most 512 bytes.
- `read` errors (`nr < 0`, tftpd.c:287-299): the oracle returns 0 to 512 bytes, so the model never sends what the code sends after a failed read. There the code sends `4 + nr` bytes: for `nr == -1` that is the 3-byte datagram 0, 3, block/256. This is not a rare I/O failure. A failed `open` leaves descriptor -1 (tftpd.c:232), and the same iteration's tick reads it, because a new session's `lastsent` of 0 makes it due at once. So the peer gets ERROR 1 followed by that 3-byte datagram. Every WRQ that passes the permission test ends this way, because the code opens without `O_CREAT`. The rows for `Outbound.TickAll` and `Outbound.NeverEmptyData` hold only for reads of 0 to 512 bytes.
- Descriptor 0: a session that never opened a file keeps descriptor 0 from `calloc`, which is the daemon's standard input. After the reap's `close(s->fd)` has closed descriptor 0, it is whatever file a later `open` returned. The `read` oracle is a pure function of descriptor and offset, so it does not model a read that blocks or one that consumes input.
- Seeking for block 0: the offset -512 is passed to the oracle unchanged. The model does not say where the descriptor is after `lseek` fails.
- `close`: the model neither calls `close` on the previous descriptor at a new handshake (tftpd.c:228) nor on reaped sessions (tftpd.c:311). A handshake just replaces the descriptor, and `Engine.Step` reports the reaped sessions in `closed`.
- Engine.Isolation: holds only for a `read` oracle that is fixed for the iteration. In the code, descriptor 0 is shared across clients. `calloc` gives every new session descriptor 0 (tftpd.c:151). The reap of a session that never opened a file closes descriptor 0 (tftpd.c:311), and the next successful `open` gets it back (tftpd.c:232). From then on, every never-opened session of another host reads that client's file in the tick, from the file's current position, because `lseek` to -512 fails (tftpd.c:285-299). It sends those bytes as DATA block 0, or becomes `done` when the file is exhausted. A later reap of any never-opened session closes that client's file. The pure oracle gives each descriptor fixed contents, so it cannot express this sharing, and the lemma does not cover it.
- `_curtime` (tftpd.c:356-361): the monotonic clock in `double` seconds becomes an integer `now` in milliseconds. One `now` stands for every clock read of an iteration: the retry check of each session (tftpd.c:275) and the stamp after each send (tftpd.c:303).
- `main` and `getopt` (tftpd.c:80-103): option parsing is not modelled. `root` and `uparms` come in as `Config`.
- `PATH_MAX` truncation by `snprintf` and `strncpy` (tftpd.c:189, 230-231): not modelled. The path is simply root, "/", filename.
- Logging (`fprintf`, `perror`) is not modelled. The `strerror` text sent after a failed `open` is an opaque `ErrText` shorter than 4092 bytes.
- Features the code does not have are not modelled: an inactivity timeout, DATA or WRQ write handling, `chmod`/`unlink` and option negotiation.

=== FILE: bytes.dfy ===
/** Octets, 16-bit network-order integers, NUL-terminated strings and ASCII
    case folding: the byte-level vocabulary the TFTP daemon works in. */
module Bytes {

  /** One octet of a datagram. */
  type byte = b: int | 0 <= b < 0x100

  /** A C `uint16_t`: opcodes, block numbers and error codes. */
  type u16 = x: int | 0 <= x < 0x1_0000

  type Bytes = seq<byte>

  /** `htons`: the two octets of `x`, most significant first. */
  function BE16(x: u16): (r: Bytes)
    ensures |r| == 2
    ensures r[0] as int * 0x100 + r[1] as int == x
  {
    [x / 0x100, x % 0x100]
  }

  /** `ntohs` of the two octets starting at offset `i`. */
  function ReadBE16(s: Bytes, i: nat): u16
    requires i + 2 <= |s|
  {
    s[i] as int * 0x100 + s[i + 1] as int
  }

  /** Reading back a big-endian field recovers the value written, wherever it sits. */
  lemma ReadBE16OfBE16(x: u16, pre: Bytes, post: Bytes)
    ensures ReadBE16(pre + BE16(x) + post, |pre|) == x
  {
    var s := pre + BE16(x) + post;
    assert s[|pre|] == BE16(x)[0] && s[|pre| + 1] == BE16(x)[1];
  }

  /** `uint16_t` increment (`block++`): wraps from 65535 to 0. */
  function Inc16(x: u16): (r: u16)
    ensures x < 0xFFFF ==> r == x + 1
    ensures x == 0xFFFF ==> r == 0
  {
    (x + 1) % 0x1_0000
  }

  /** The C string starting at the head of `s`: everything before the first NUL,
      or all of `s` when it holds no NUL. */
  function UntilNul(s: Bytes): (r: Bytes)
    ensures r <= s
    ensures 0 !in r
    ensures |r| < |s| ==> s[|r|] == 0
    decreases |s|
  {
    if |s| == 0 || s[0] == 0 then [] else [s[0]] + UntilNul(s[1..])
  }

  /** A NUL-terminated field reads back as exactly the string that was written. */
  lemma {:induction false} UntilNulOfTerminated(a: Bytes, rest: Bytes)
    requires 0 !in a
    ensures UntilNul(a + [0] + rest) == a
    decreases |a|
  {
    if |a| == 0 {
      assert (a + [0] + rest)[0] == 0;
    } else {
      assert a[0] in a;
      assert (a + [0] + rest)[1..] == a[1..] + [0] + rest;
      assert forall k :: 0 <= k < |a[1..]| ==> a[1..][k] == a[k + 1];
      assert 0 !in a[1..];
      UntilNulOfTerminated(a[1..], rest);
      assert [a[0]] + a[1..] == a;
    }
  }

  /** `tolower` in the C locale: only 'A'..'Z' are folded. */
  function Lower(b: byte): byte
  {
    if 'A' as int <= b <= 'Z' as int then b + 32 else b
  }

  /** Byte-wise `Lower`. */
  function LowerAll(s: Bytes): (r: Bytes)
    ensures |r| == |s|
    ensures forall i :: 0 <= i < |s| ==> r[i] == Lower(s[i])
  {
    seq(|s|, i requires 0 <= i < |s| => Lower(s[i]))
  }

  /** True when every character of `s` fits in one octet. */
  predicate IsAscii(s: string)
  {
    forall i :: 0 <= i < |s| ==> s[i] as int < 0x100
  }

  /** The octets of a one-byte-per-character string literal. */
  function Ascii(s: string): (r: Bytes)
    requires IsAscii(s)
    ensures |r| == |s|
    ensures forall i :: 0 <= i < |s| ==> r[i] == s[i] as int
  {
    seq(|s|, i requires 0 <= i < |s| => s[i] as int)
  }
}

=== FILE: engine.dfy ===
/** One iteration of the daemon's main loop (tftpd.c:137-325): at most one
    received datagram is dispatched to its sender's session, then every
    session takes its outbound turn, then finished and failed sessions are
    removed. */
module Engine {
  import opened Bytes
  import opened Optional
  import opened Wire
  import opened Sessions
  import opened Request
  import opened Inbound
  import opened Outbound
  import opened Registry

  /** What one iteration leaves behind: the session list, the datagrams sent
      (in order) and the sessions whose descriptors were closed. */
  datatype Frame = Frame(sessions: seq<Session>, sent: seq<Datagram>, closed: seq<Session>)

  /** The receive path: find or create the sender's session, then dispatch. */
  function Receive(ss: seq<Session>, d: Datagram, cfg: Config, fs: Fs): (r: (seq<Session>, seq<Datagram>))
    requires Bounded(d.payload)
    ensures |r.0| == |ss| || |r.0| == |ss| + 1
    ensures UniqueHosts(ss) ==> UniqueHosts(r.0)
    ensures forall t :: t in r.0 && t.peer.ip != d.peer.ip ==> t in ss
    ensures forall t :: t in ss && t.peer.ip != d.peer.ip ==> t in r.0
    ensures forall x :: x in r.1 ==> x.peer == d.peer
    ensures Knows(ss, d.peer.ip) ==>
      var i := FindHost(ss, d.peer.ip).value;
      var h := Dispatch(ss[i], d.payload, d.peer, cfg, fs);
      r == (ss[i := h.0], h.1)
    ensures !Knows(ss, d.peer.ip) ==>
      var h := Dispatch(Fresh(d.peer), d.payload, d.peer, cfg, fs);
      r == ([h.0] + ss, h.1)
  {
    var (ss1, i) := Lookup(ss, d.peer);
    assert !Knows(ss, d.peer.ip) ==>
      ss1[0 := Dispatch(Fresh(d.peer), d.payload, d.peer, cfg, fs).0] == [Dispatch(Fresh(d.peer), d.payload, d.peer, cfg, fs).0] + ss;
    var (s', out) := Dispatch(ss1[i], d.payload, d.peer, cfg, fs);
    var ss2 := ss1[i := s'];
    assert forall k :: 0 <= k < |ss2| && k != i ==> ss2[k] == ss1[k];
    assert forall t :: t in ss && t.peer.ip != d.peer.ip ==> t in ss1;
    (ss2, out)
  }

  /** One loop iteration at time `now`, with or without a received datagram. */
  function Step(ss: seq<Session>, incoming: Option<Datagram>, now: int, cfg: Config, fs: Fs): (r: Frame)
    requires incoming.Some? ==> Bounded(incoming.value.payload)
    ensures UniqueHosts(ss) ==> UniqueHosts(r.sessions)
    ensures forall t :: t in r.sessions ==> !Reapable(t)
    ensures forall t :: t in r.closed ==> Reapable(t)
    ensures var rcv := if incoming.Some? then Receive(ss, incoming.value, cfg, fs) else (ss, []);
      var ticked := TickAll(rcv.0, now, fs.read);
      && multiset(r.sessions) + multiset(r.closed) == multiset(ticked.0)
      && r.sessions == Reap(ticked.0) && r.closed == Reaped(ticked.0)
      && r.sent == rcv.1 + ticked.1
  {
    var (ss1, out1) := if incoming.Some? then Receive(ss, incoming.value, cfg, fs) else (ss, []);
    var (ss2, out2) := TickAll(ss1, now, fs.read);
    assert UniqueHosts(ss1) ==> UniqueHosts(ss2);
    ReapKeepsUniqueHosts(ss2);
    ReapMembers(ss2);
    ReapPartitions(ss2);
    Frame(Reap(ss2), out1 + out2, Reaped(ss2))
  }

  /** When every session of an address other than `ip` in `a` is also in
      `b`, every such session surviving the tick and reap of `a` survives
      those of `b`. */
  lemma TickReapOutsideHost(a: seq<Session>, b: seq<Session>, ip: u32, now: int, read: (int, int) -> Chunk)
    requires forall t: Session :: t.peer.ip != ip && t in a ==> t in b
    ensures forall t: Session :: t.peer.ip != ip && t in Reap(TickAll(a, now, read).0) ==>
      t in Reap(TickAll(b, now, read).0)
  {
    var ta := TickAll(a, now, read).0;
    var tb := TickAll(b, now, read).0;
    ReapMembers(ta);
    ReapMembers(tb);
    forall t: Session | t.peer.ip != ip && t in Reap(ta)
      ensures t in Reap(tb)
    {
      assert t in ta && !Reapable(t);
      var k :| 0 <= k < |ta| && ta[k] == t;
      assert ta[k] == TickOne(a[k], now, read).0;
      assert a[k].peer == t.peer;
      assert a[k] in b;
      var k' :| 0 <= k' < |b| && b[k'] == a[k];
      assert tb[k'] == TickOne(b[k'], now, read).0;
    }
  }

  /** A datagram from one host changes no other host's session: every session
      of another address ends the iteration exactly as it would have with
      nothing received. This holds of `Step`, which uses the intended reap,
      and for a `read` oracle that is the same in both runs. With the cleanup
      loop as written it fails whenever the sender's session is new and the
      datagram fails it (`FailedNewHostHeadsList`). It also fails in the code
      through descriptor 0: sessions that never opened a file all read
      descriptor 0, which a reap can close and a later `open` can reuse, so
      one host's `open` changes what other hosts' sessions read. */
  lemma Isolation(ss: seq<Session>, d: Datagram, now: int, cfg: Config, fs: Fs)
    requires Bounded(d.payload)
    ensures forall t: Session :: t.peer.ip != d.peer.ip ==>
      (t in Step(ss, Some(d), now, cfg, fs).sessions <==> t in Step(ss, None, now, cfg, fs).sessions)
  {
    var ss1 := Receive(ss, d, cfg, fs).0;
    assert Step(ss, Some(d), now, cfg, fs).sessions == Reap(TickAll(ss1, now, fs.read).0);
    assert Step(ss, None, now, cfg, fs).sessions == Reap(TickAll(ss, now, fs.read).0);
    TickReapOutsideHost(ss1, ss, d.peer.ip, now, fs.read);
    TickReapOutsideHost(ss, ss1, d.peer.ip, now, fs.read);
  }

  /** A new host's session is placed at the head of the list, so when its
      first datagram fails it (an unknown opcode, an unsupported mode, a
      refused request, an ACK of any block but 0), the ticked list starts
      with a reapable session: the one case in which the cleanup loop as
      written (`ReapAsWritten`) drops the whole list. */
  lemma FailedNewHostHeadsList(ss: seq<Session>, d: Datagram, now: int, cfg: Config, fs: Fs)
    requires Bounded(d.payload)
    requires !Knows(ss, d.peer.ip)
    requires Dispatch(Fresh(d.peer), d.payload, d.peer, cfg, fs).0.errored
    ensures var t := TickAll(Receive(ss, d, cfg, fs).0, now, fs.read).0;
      |t| > 0 && Reapable(t[0]) && t[0].peer == d.peer
  {
  }

  /** An empty file never ends its transfer: the first read returns no
      bytes, so no DATA goes out and the session is `done` but not `acked`.
      It is not reapable, and every later tick leaves it exactly as it is,
      so without a new datagram it stays in the list for good. */
  lemma EmptyFileLingers(s: Session, now: int, later: int, read: (int, int) -> Chunk)
    requires !s.acked && !s.errored
    requires now - s.lastSent >= RETRY_PERIOD_MS
    requires |read(s.fd, Offset(s.block))| == 0
    ensures var t := TickOne(s, now, read);
      && t.1 == []
      && t.0.done && !Reapable(t.0)
      && TickOne(t.0, later, read) == (t.0, [])
  {
  }

  /** A new read request on a session that already completed a handshake
      (block 1, as after an empty file) moves the block on to 2 instead of
      back to 1, so the next DATA sent is block 2, read from offset 512. */
  lemma RehandshakeSkipsBlockOne(s: Session, p: Bytes, from: Endpoint, now: int, cfg: Config, fs: Fs)
    requires s.block == 1 && !s.acked
    requires RequestInBounds(p) && Opcode(p) == RRQ && Admits(p, cfg, fs)
    requires now - s.lastSent >= RETRY_PERIOD_MS
    ensures var s1 := OnRequest(s, p, from, cfg, fs).0;
      && s1.block == 2
      && (|fs.read(s1.fd, BLOCK_SIZE)| > 0 ==>
            TickOne(s1, now, fs.read).1 == [Datagram(s.peer, EncodeData(2, fs.read(s1.fd, BLOCK_SIZE)))])
  {
  }

  /** An ACK repeated after the block it acknowledged has been followed by
      the next one is a desynchronisation: the session fails (and is reaped)
      instead of advancing twice. */
  lemma DuplicateAckIsFatal(s: Session, from: Endpoint, now: int, cfg: Config, fs: Fs)
    requires !s.errored && !s.done
    requires |fs.read(s.fd, Offset(Inc16(s.block)))| > 0
    ensures var ack := EncodeAck(s.block);
      var s1 := Dispatch(s, ack, from, cfg, fs).0;
      var s2 := TickOne(s1, now, fs.read).0;
      var s3 := Dispatch(s2, ack, from, cfg, fs).0;
      && s1.acked
      && s2.block == Inc16(s.block) && !Reapable(s2)
      && s3.errored && s3.block == s2.block && Reapable(s3)
  {
    AckRoundTrip(s.block);
    var ack := EncodeAck(s.block);
    var s2 := TickOne(Dispatch(s, ack, from, cfg, fs).0, now, fs.read).0;
    assert s2.block != s.block;
  }

  /** The handshake of an admitted read request on a zeroed session. */
  lemma AdmittedOnFresh(from: Endpoint, name: Bytes, mode: Bytes, cfg: Config, fs: Fs)
    requires 0 !in name && |name| < PATH_MAX
    requires 0 !in mode && |mode| <= MODE_BUF && ModeSupported(mode)
    requires fs.stat(JoinPath(cfg.root, name)).Found?
    requires Permitted(RRQ, fs.stat(JoinPath(cfg.root, name)).mode, cfg.uparms)
    requires fs.open(JoinPath(cfg.root, name), ReadOnly).Opened?
    ensures var p := EncodeRequest(RRQ, name, mode);
      var fd := fs.open(JoinPath(cfg.root, name), ReadOnly).fd;
      && Bounded(p)
      && Dispatch(Fresh(from), p, from, cfg, fs) ==
         (Session(from, JoinPath(cfg.root, name), fd, 1, false, 0, false, false), [Datagram(from, EncodeAck(0))])
  {
    var p := EncodeRequest(RRQ, name, mode);
    ParseEncodedRequest(RRQ, name, mode, []);
    assert p + [] == p;
    assert ModeField(p) == mode;
    assert RequestPath(cfg, p) == JoinPath(cfg.root, name);
    assert Admits(p, cfg, fs);
  }

  /** A session fresh from an admitted handshake, at the head of the list,
      sends block 1 from offset 0 first and stays at the head after the
      reap. */
  lemma TickNewHead(h: Session, ss: seq<Session>, now: int, read: (int, int) -> Chunk)
    requires h.block == 1 && !h.acked && !h.errored && !h.done
    requires now - h.lastSent >= RETRY_PERIOD_MS
    requires |read(h.fd, 0)| > 0
    ensures var t := TickAll([h] + ss, now, read);
      && |t.1| > 0 && t.1[0] == Datagram(h.peer, EncodeData(1, read(h.fd, 0)))
      && |Reap(t.0)| > 0 && Reap(t.0)[0] == h.(lastSent := now)
  {
    var one := TickOne(h, now, read);
    assert one == (h.(lastSent := now), [Datagram(h.peer, EncodeData(1, read(h.fd, 0)))]);
    var rest := TickAll(ss, now, read);
    TickAllCons(h, ss, now, read);
    var t := TickAll([h] + ss, now, read);
    assert t.0 == [one.0] + rest.0;
    assert Reap(t.0) == [one.0] + Reap(rest.0);
  }

  /** An admitted read request from a new host puts the new session at the
      head of the list and answers with ACK 0. */
  lemma ReceiveAdmittedRead(ss: seq<Session>, from: Endpoint, name: Bytes, mode: Bytes, cfg: Config, fs: Fs)
    requires !Knows(ss, from.ip)
    requires 0 !in name && |name| < PATH_MAX
    requires 0 !in mode && |mode| <= MODE_BUF && ModeSupported(mode)
    requires fs.stat(JoinPath(cfg.root, name)).Found?
    requires Permitted(RRQ, fs.stat(JoinPath(cfg.root, name)).mode, cfg.uparms)
    requires fs.open(JoinPath(cfg.root, name), ReadOnly).Opened?
    ensures var p := EncodeRequest(RRQ, name, mode);
      var fd := fs.open(JoinPath(cfg.root, name), ReadOnly).fd;
      && Bounded(p)
      && Receive(ss, Datagram(from, p), cfg, fs) ==
         ([Session(from, JoinPath(cfg.root, name), fd, 1, false, 0, false, false)] + ss, [Datagram(from, EncodeAck(0))])
  {
    AdmittedOnFresh(from, name, mode, cfg, fs);
  }

  /** A read request from a new host for a readable file starts the
      transfer in the same iteration: ACK 0 goes out, then block 1 read from
      offset 0 (the zeroed session's last send is long past), and the new
      session heads the list waiting for ACK 1. */
  lemma ReadRequestStartsTransfer(ss: seq<Session>, from: Endpoint, name: Bytes, mode: Bytes,
                                  now: int, cfg: Config, fs: Fs)
    requires !Knows(ss, from.ip)
    requires 0 !in name && |name| < PATH_MAX
    requires 0 !in mode && |mode| <= MODE_BUF && ModeSupported(mode)
    requires fs.stat(JoinPath(cfg.root, name)).Found?
    requires Permitted(RRQ, fs.stat(JoinPath(cfg.root, name)).mode, cfg.uparms)
    requires fs.open(JoinPath(cfg.root, name), ReadOnly).Opened?
    requires now >= RETRY_PERIOD_MS
    requires |fs.read(fs.open(JoinPath(cfg.root, name), ReadOnly).fd, 0)| > 0
    ensures var p := EncodeRequest(RRQ, name, mode);
      var fd := fs.open(JoinPath(cfg.root, name), ReadOnly).fd;
      && Bounded(p)
      && var r := Step(ss, Some(Datagram(from, p)), now, cfg, fs);
      && |r.sent| >= 2
      && r.sent[0] == Datagram(from, EncodeAck(0))
      && r.sent[1] == Datagram(from, EncodeData(1, fs.read(fd, 0)))
      && |r.sessions| > 0
      && r.sessions[0] == Session(from, JoinPath(cfg.root, name), fd, 1, false, now, false, false)
  {
    var p := EncodeRequest(RRQ, name, mode);
    var fd := fs.open(JoinPath(cfg.root, name), ReadOnly).fd;
    var h := Session(from, JoinPath(cfg.root, name), fd, 1, false, 0, false, false);
    var d := Datagram(from, p);
    ReceiveAdmittedRead(ss, from, name, mode, cfg, fs);
    TickNewHead(h, ss, now, fs.read);
  }
}

=== FILE: inbound.dfy ===
/** The inbound dispatch (tftpd.c:157-265): what one received datagram does
    to the session of its sender. */
module Inbound {
  import opened Bytes
  import opened Wire
  import opened Sessions
  import opened Request

  /** The datagram holds every byte the dispatch reads: the opcode, the
      block of an ACK, and the fields of a request long enough to be
      parsed. */
  predicate Bounded(p: Bytes)
  {
    && |p| >= 2
    && (Opcode(p) == ACK ==> |p| >= 4)
    && ((Opcode(p) == RRQ || Opcode(p) == WRQ) && |p| >= 4 ==> RequestInBounds(p))
  }

  /** The `switch (op)` of the receive path. */
  function Dispatch(s: Session, p: Bytes, from: Endpoint, cfg: Config, fs: Fs): (r: (Session, seq<Datagram>))
    requires Bounded(p)
    ensures r.0.peer == s.peer
    ensures Opcode(p) == ACK ==>
      && r.1 == []
      && r.0.block == s.block
      && (AckBlock(p) == s.block ==> r.0 == s.(acked := true))
      && (AckBlock(p) != s.block ==> r.0 == s.(errored := true))
    ensures Opcode(p) == DATA || Opcode(p) == ERR ==> r == (s, [])
    ensures (Opcode(p) == 0 || Opcode(p) > ERR) ==> r == (s.(errored := true), [])
    ensures Opcode(p) == RRQ || Opcode(p) == WRQ ==> r == OnRequest(s, p, from, cfg, fs)
  {
    var op := Opcode(p);
    if op == RRQ || op == WRQ then OnRequest(s, p, from, cfg, fs)
    else if op == DATA then (s, [])
    else if op == ACK then
      if AckBlock(p) == s.block then (s.(acked := true), []) else (s.(errored := true), [])
    else if op == ERR then (s, [])
    else (s.(errored := true), [])
  }
}

=== FILE: optional.dfy ===
/** An optional value: a result that may be missing, such as a lookup that
    finds nothing or a parse that fails. */
module Optional {
  datatype Option<T> = None | Some(value: T)
}

=== FILE: outbound.dfy ===
/** The outbound tick (tftpd.c:269-305): once per loop iteration every
    session, whatever its state, may advance its block, send the block's
    data or find the end of its file. */
module Outbound {
  import opened Bytes
  import opened Wire
  import opened Sessions

  /** `(s->block-1) * 512`, computed in `int` after promotion: block 0
      gives -512, an offset `lseek` refuses. */
  function Offset(block: u16): int
  {
    (block - 1) * BLOCK_SIZE
  }

  /** One session's turn in the tick; `read(fd, offset)` is what `lseek`
      then `read` of up to one block return, and `now` the clock in
      milliseconds. */
  function TickOne(s: Session, now: int, read: (int, int) -> Chunk): (r: (Session, seq<Datagram>))
    ensures r.0.peer == s.peer && r.0.fd == s.fd && r.0.file == s.file
    ensures r.0.errored == s.errored
    ensures r.0.block == if s.acked then Inc16(s.block) else s.block
    ensures !s.acked && now - s.lastSent < RETRY_PERIOD_MS ==> r == (s, [])
    ensures |r.1| <= 1
    ensures r.1 != [] <==>
      (s.acked || now - s.lastSent >= RETRY_PERIOD_MS) && |read(s.fd, Offset(r.0.block))| > 0
    ensures r.1 != [] ==>
      && r.1[0] == Datagram(s.peer, EncodeData(r.0.block, read(s.fd, Offset(r.0.block))))
      && r.0.lastSent == now && !r.0.acked && r.0.done == s.done
    ensures (s.acked || now - s.lastSent >= RETRY_PERIOD_MS) && |read(s.fd, Offset(r.0.block))| == 0 ==>
      r.0.done && r.0.acked == s.acked && r.0.lastSent == s.lastSent
    ensures r.0.acked ==> Reapable(r.0)
  {
    if !s.acked && now - s.lastSent < RETRY_PERIOD_MS then (s, [])
    else
      var block := if s.acked then Inc16(s.block) else s.block;
      var chunk := read(s.fd, Offset(block));
      if |chunk| == 0 then (s.(block := block, done := true), [])
      else
        (s.(block := block, lastSent := now, acked := false),
         [Datagram(s.peer, EncodeData(block, chunk))])
  }

  /** The tick over the whole session list, in list order. */
  function TickAll(ss: seq<Session>, now: int, read: (int, int) -> Chunk): (r: (seq<Session>, seq<Datagram>))
    ensures |r.0| == |ss|
    ensures forall i :: 0 <= i < |ss| ==> r.0[i] == TickOne(ss[i], now, read).0
    ensures |r.1| <= |ss|
    ensures forall d :: d in r.1 ==>
      && |d.payload| > 4
      && Opcode(d.payload) == DATA
      && exists i :: 0 <= i < |ss| && d.peer == ss[i].peer
    ensures forall i, x :: 0 <= i < |ss| && x in TickOne(ss[i], now, read).1 ==> x in r.1
    decreases |ss|
  {
    if |ss| == 0 then ([], [])
    else
      var (s', out) := TickOne(ss[0], now, read);
      var (rest', outs) := TickAll(ss[1..], now, read);
      assert forall i :: 1 <= i < |ss| ==> ss[i] == ss[1..][i - 1];
      ([s'] + rest', out + outs)
  }

  /** Appending to a list with a head keeps the head in front. */
  lemma ConsAppend<T>(x: T, tail: seq<T>, b: seq<T>)
    ensures ([x] + tail) + b == [x] + (tail + b)
  {
  }

  lemma AppendAssoc<T>(p: seq<T>, q: seq<T>, r: seq<T>)
    ensures p + (q + r) == (p + q) + r
  {
  }

  /** The tick of a list with `x` at its head: `x` first, then the rest. */
  lemma TickAllCons(x: Session, rest: seq<Session>, now: int, read: (int, int) -> Chunk)
    ensures var one := TickOne(x, now, read);
      var tr := TickAll(rest, now, read);
      TickAll([x] + rest, now, read) == ([one.0] + tr.0, one.1 + tr.1)
  {
    var xs := [x] + rest;
    assert xs[0] == x && xs[1..] == rest;
  }

  /** The sessions after a tick of two lists in a row are the two ticked
      lists in a row. */
  lemma {:induction false} TickAllAppendSessions(a: seq<Session>, b: seq<Session>, now: int, read: (int, int) -> Chunk)
    ensures TickAll(a + b, now, read).0 == TickAll(a, now, read).0 + TickAll(b, now, read).0
    decreases |a|
  {
    var kb := TickAll(b, now, read).0;
    if |a| == 0 {
      assert a + b == b;
      assert [] + kb == kb;
    } else {
      var x, tail := a[0], a[1..];
      var kt := TickAll(tail, now, read).0;
      assert a == [x] + tail;
      ConsAppend(x, tail, b);
      TickAllCons(x, tail, now, read);
      TickAllCons(x, tail + b, now, read);
      TickAllAppendSessions(tail, b, now, read);
      AppendAssoc([TickOne(x, now, read).0], kt, kb);
    }
  }

  /** The tick sends the datagrams of the sessions one after the other, in
      list order: those of a list followed by another are the first list's
      followed by the second's. With `TickAllSingleton` this pins down the
      order of the datagrams. */
  lemma {:induction false} TickAllAppendSends(a: seq<Session>, b: seq<Session>, now: int, read: (int, int) -> Chunk)
    ensures TickAll(a + b, now, read).1 == TickAll(a, now, read).1 + TickAll(b, now, read).1
    decreases |a|
  {
    var sb := TickAll(b, now, read).1;
    if |a| == 0 {
      assert a + b == b;
      assert [] + sb == sb;
    } else {
      var x, tail := a[0], a[1..];
      var sx := TickOne(x, now, read).1;
      var st := TickAll(tail, now, read).1;
      assert a == [x] + tail;
      ConsAppend(x, tail, b);
      TickAllCons(x, tail, now, read);
      TickAllCons(x, tail + b, now, read);
      TickAllAppendSends(tail, b, now, read);
      AppendAssoc(sx, st, sb);
    }
  }

  /** One session's tick on its own is its `TickOne`. */
  lemma TickAllSingleton(s: Session, now: int, read: (int, int) -> Chunk)
    ensures TickAll([s], now, read) == ([TickOne(s, now, read).0], TickOne(s, now, read).1)
  {
    assert [s][1..] == [];
    var one := TickOne(s, now, read);
    assert TickAll([s], now, read) == ([one.0] + [], one.1 + []);
    assert one.1 + [] == one.1 && [one.0] + [] == [one.0];
  }

  /** A session that survives the reap after a tick has no pending
      acknowledgement, so the next tick cannot advance its block again
      unless a fresh ACK arrives in between. */
  lemma NoDoubleAdvance(s: Session, now: int, later: int, read: (int, int) -> Chunk)
    requires !Reapable(TickOne(s, now, read).0)
    ensures var t := TickOne(s, now, read).0;
      TickOne(t, later, read).0.block == t.block
  {
  }

  /** Every DATA block the tick sends carries at least one byte: the end of a
      file is never announced with an empty block, so a file whose size is a
      multiple of 512 ends on a full block. */
  lemma NeverEmptyData(s: Session, now: int, read: (int, int) -> Chunk)
    ensures forall d :: d in TickOne(s, now, read).1 ==>
      4 < |d.payload| <= 4 + BLOCK_SIZE && DataBlock(d.payload) == TickOne(s, now, read).0.block
  {
    var r := TickOne(s, now, read);
    if r.1 != [] {
      DataRoundTrip(r.0.block, read(s.fd, Offset(r.0.block)));
    }
  }
}

=== FILE: registry.dfy ===
/** The session list (`clients`): finding or creating the sender's session
    (tftpd.c:146-155) and removing finished or failed sessions
    (tftpd.c:308-324). The list is a `seq<Session>` whose order is the
    linked list's order, newest first. */
module Registry {
  import opened Bytes
  import opened Optional
  import opened Wire
  import opened Sessions

  /** At most one session per IPv4 address. */
  predicate UniqueHosts(ss: seq<Session>)
  {
    forall i, j :: 0 <= i < j < |ss| ==> ss[i].peer.ip != ss[j].peer.ip
  }

  /** Some session in `ss` has address `ip`. */
  predicate Knows(ss: seq<Session>, ip: u32)
  {
    exists j :: 0 <= j < |ss| && ss[j].peer.ip == ip
  }

  /** The lookup loop: the position of the first session whose address is
      `ip`; the port is not compared. */
  function FindHost(ss: seq<Session>, ip: u32): (r: Option<nat>)
    ensures r.Some? ==> r.value < |ss| && ss[r.value].peer.ip == ip
    ensures r.Some? ==> forall j :: 0 <= j < r.value ==> ss[j].peer.ip != ip
    ensures r.None? <==> !Knows(ss, ip)
    decreases |ss|
  {
    if |ss| == 0 then None
    else if ss[0].peer.ip == ip then Some(0)
    else
      match FindHost(ss[1..], ip)
      case None =>
        assert forall j :: 1 <= j < |ss| ==> ss[j] == ss[1..][j - 1];
        None
      case Some(k) => Some(k + 1)
  }

  /** The sender's session and its position, prepending a zeroed session
      for an address not seen before. */
  function Lookup(ss: seq<Session>, from: Endpoint): (r: (seq<Session>, nat))
    ensures r.1 < |r.0| && r.0[r.1].peer.ip == from.ip
    ensures forall j :: 0 <= j < r.1 ==> r.0[j].peer.ip != from.ip
    ensures Knows(ss, from.ip) ==> r.0 == ss
    ensures !Knows(ss, from.ip) ==> r == ([Fresh(from)] + ss, 0)
    ensures UniqueHosts(ss) ==> UniqueHosts(r.0)
  {
    match FindHost(ss, from.ip)
    case Some(i) => (ss, i)
    case None => ([Fresh(from)] + ss, 0)
  }

  /** Two senders on the same host reach the same session, whatever their
      ports: the session key is the address alone. */
  lemma LookupIgnoresPort(ss: seq<Session>, a: Endpoint, b: Endpoint)
    requires a.ip == b.ip
    requires Knows(ss, a.ip)
    ensures Lookup(ss, a) == Lookup(ss, b)
  {
  }

  /** The sessions that survive the reap: the intended effect of the
      cleanup loop, relinking `prev->next` past each removed session. */
  function Reap(ss: seq<Session>): (r: seq<Session>)
    ensures |r| <= |ss|
    decreases |ss|
  {
    if |ss| == 0 then []
    else if Reapable(ss[0]) then Reap(ss[1..])
    else [ss[0]] + Reap(ss[1..])
  }

  /** The sessions the reap closes, in list order. */
  function Reaped(ss: seq<Session>): (r: seq<Session>)
    ensures |r| <= |ss|
    decreases |ss|
  {
    if |ss| == 0 then []
    else if Reapable(ss[0]) then [ss[0]] + Reaped(ss[1..])
    else Reaped(ss[1..])
  }

  /** The reap distributes over concatenation: it keeps survivors in their
      original relative order. Together with `ReapMembers` this pins down
      `Reap` as the order-preserving filter of the live sessions. */
  lemma {:induction false} ReapAppend(a: seq<Session>, b: seq<Session>)
    ensures Reap(a + b) == Reap(a) + Reap(b)
    decreases |a|
  {
    if |a| == 0 {
      assert a + b == b;
    } else {
      var ab := a + b;
      assert ab[0] == a[0];
      assert ab[1..] == a[1..] + b;
      ReapAppend(a[1..], b);
      if Reapable(a[0]) {
        assert Reap(ab) == Reap(a[1..] + b);
      } else {
        assert Reap(ab) == [a[0]] + Reap(a[1..] + b);
        assert Reap(a) == [a[0]] + Reap(a[1..]);
      }
    }
  }

  /** The closed sessions likewise keep their relative order. */
  lemma {:induction false} ReapedAppend(a: seq<Session>, b: seq<Session>)
    ensures Reaped(a + b) == Reaped(a) + Reaped(b)
    decreases |a|
  {
    if |a| == 0 {
      assert a + b == b;
    } else {
      var ab := a + b;
      assert ab[0] == a[0];
      assert ab[1..] == a[1..] + b;
      ReapedAppend(a[1..], b);
      if Reapable(a[0]) {
        assert Reaped(ab) == [a[0]] + Reaped(a[1..] + b);
        assert Reaped(a) == [a[0]] + Reaped(a[1..]);
      } else {
        assert Reaped(ab) == Reaped(a[1..] + b);
      }
    }
  }

  /** The survivors are exactly the sessions that are not reapable, and the
      closed sessions exactly the reapable ones. */
  lemma {:induction false} ReapMembers(ss: seq<Session>)
    ensures forall s :: s in Reap(ss) <==> s in ss && !Reapable(s)
    ensures forall s :: s in Reaped(ss) <==> s in ss && Reapable(s)
    decreases |ss|
  {
    if |ss| > 0 {
      ReapMembers(ss[1..]);
      assert ss == [ss[0]] + ss[1..];
    }
  }

  /** Nothing is lost or duplicated: every session is either kept or closed. */
  lemma {:induction false} ReapPartitions(ss: seq<Session>)
    ensures multiset(Reap(ss)) + multiset(Reaped(ss)) == multiset(ss)
    decreases |ss|
  {
    if |ss| > 0 {
      ReapPartitions(ss[1..]);
      assert ss == [ss[0]] + ss[1..];
    }
  }

  /** Removing sessions cannot make two of them share an address. */
  lemma {:induction false} ReapKeepsUniqueHosts(ss: seq<Session>)
    ensures UniqueHosts(ss) ==> UniqueHosts(Reap(ss))
    decreases |ss|
  {
    if |ss| > 0 && UniqueHosts(ss) {
      var rest := ss[1..];
      assert UniqueHosts(rest) by {
        assert forall i :: 0 <= i < |rest| ==> rest[i] == ss[i + 1];
      }
      ReapKeepsUniqueHosts(rest);
      ReapMembers(rest);
      if !Reapable(ss[0]) {
        var r := Reap(ss);
        assert r == [ss[0]] + Reap(rest);
        forall j | 1 <= j < |r|
          ensures r[0].peer.ip != r[j].peer.ip
        {
          assert r[j] in Reap(rest);
          var k :| 0 <= k < |rest| && rest[k] == r[j];
          assert ss[k + 1] == r[j];
        }
      }
    }
  }

  /** The cleanup loop as written: relinking through `prev` works, but
      removing the head sets `clients` to NULL, which also drops every later
      session from the list (they are neither kept nor closed). Returns the
      list reachable from `clients` afterwards and the sessions closed. */
  method ReapAsWritten(ss: seq<Session>) returns (kept: seq<Session>, closed: seq<Session>)
    ensures closed == Reaped(ss)
    ensures |ss| > 0 && Reapable(ss[0]) ==> kept == []
    ensures |ss| == 0 || !Reapable(ss[0]) ==> kept == Reap(ss)
  {
    var linked: seq<Session> := [];
    var clientsNull := false;
    closed := [];
    var i := 0;
    while i < |ss|
      invariant 0 <= i <= |ss|
      invariant Reap(ss) == linked + Reap(ss[i..])
      invariant Reaped(ss) == closed + Reaped(ss[i..])
      invariant clientsNull <==> i > 0 && Reapable(ss[0])
    {
      assert ss[i..][1..] == ss[i + 1..];
      if Reapable(ss[i]) {
        closed := closed + [ss[i]];
        if i == 0 {
          clientsNull := true;
        }
      } else {
        linked := linked + [ss[i]];
      }
      i := i + 1;
    }
    assert ss[i..] == [];
    kept := if clientsNull then [] else linked;
  }

  /** The divergence: when the head is removed, every session that should
      survive is lost with it. */
  lemma HeadRemovalLosesSurvivors(ss: seq<Session>, j: nat)
    requires |ss| > 0 && Reapable(ss[0])
    requires j < |ss| && !Reapable(ss[j])
    ensures ss[j] in Reap(ss) && Reap(ss) != []
  {
    ReapMembers(ss);
  }
}

=== FILE: request.dfy ===
/** Read and write requests (tftpd.c:159-245): extracting the filename and
    mode, the case-insensitive mode check, the `stat` error mapping, the
    permission-bit decision and the successful handshake. */
module Request {
  import opened Bytes
  import opened Wire
  import opened Sessions

  /** Size of the `fileName` buffer. */
  const PATH_MAX: nat := 4096

  /** Size of the `mode` buffer. */
  const MODE_BUF: nat := 32

  /* Permission bits of `st_mode`. */
  const S_IRUSR: nat := 0x100
  const S_IWUSR: nat := 0x80
  const S_IROTH: nat := 0x4
  const S_IWOTH: nat := 0x2

  const NETASCII: Bytes := Ascii("netascii")
  const OCTET: Bytes := Ascii("octet")

  /* Fixed texts of the ERROR replies. */
  const NO_SUCH_FILE: ErrText := Ascii("No such file")
  const STAT_FAILED: ErrText := Ascii("Stat failed")
  const FILE_EXISTS: ErrText := Ascii("File exists")
  const ACCESS_DENIED: ErrText := Ascii("Access denied")

  function Min(a: nat, b: nat): nat
  {
    if a <= b then a else b
  }

  /** The filename field: the bytes after the opcode up to the first NUL. */
  function FileName(p: Bytes): Bytes
    requires |p| >= 2
  {
    UntilNul(p[2..])
  }

  /** Where the mode field starts: just past the filename's terminator. */
  function ModeStart(p: Bytes): nat
    requires |p| >= 2
  {
    2 + |FileName(p)| + 1
  }

  /** Every byte the filename and mode loops look at lies inside the
      datagram, and the filename fits `fileName` with its terminator. The
      mode loop stops at a NUL or after `MODE_BUF` bytes, looking at one byte
      more than it copies; inside these bounds the `rem` countdown never
      stops either loop. */
  predicate RequestInBounds(p: Bytes)
  {
    && |p| >= 4
    && 2 + |FileName(p)| < |p|
    && |FileName(p)| < PATH_MAX
    && ModeStart(p) + Min(|UntilNul(p[ModeStart(p)..])|, MODE_BUF) < |p|
  }

  /** What the mode loop copies into `mode`: the mode string, cut at
      `MODE_BUF` bytes. */
  function ModeField(p: Bytes): (r: Bytes)
    requires RequestInBounds(p)
    ensures |r| <= MODE_BUF
    ensures 0 !in r
  {
    var u := UntilNul(p[ModeStart(p)..]);
    if |u| <= MODE_BUF then u else u[..MODE_BUF]
  }

  /** A request as a peer writes it (RFC 1350 section 5), possibly followed
      by more bytes such as the options of RFC 2347, is read back as the
      filename it names and its mode, cut to the mode buffer; whatever
      follows the mode's terminator is ignored. */
  lemma ParseEncodedRequest(op: u16, name: Bytes, mode: Bytes, rest: Bytes)
    requires op == RRQ || op == WRQ
    requires 0 !in name && 0 !in mode
    requires |name| < PATH_MAX
    ensures var p := EncodeRequest(op, name, mode) + rest;
      && Opcode(p) == op
      && RequestInBounds(p)
      && FileName(p) == name
      && ModeField(p) == if |mode| <= MODE_BUF then mode else mode[..MODE_BUF]
  {
    var p := EncodeRequest(op, name, mode) + rest;
    assert p == BE16(op) + (name + [0] + mode + [0] + rest);
    ReadBE16OfBE16(op, [], name + [0] + mode + [0] + rest);
    assert [] + BE16(op) + (name + [0] + mode + [0] + rest) == p;
    assert p[2..] == name + [0] + (mode + [0] + rest);
    UntilNulOfTerminated(name, mode + [0] + rest);
    assert FileName(p) == name;
    assert p[ModeStart(p)..] == mode + [0] + rest;
    UntilNulOfTerminated(mode, rest);
  }

  /** `strcasecmp(mode, "netascii") == 0 || strcasecmp(mode, "octet") == 0`:
      equal after folding ASCII case. */
  predicate ModeSupported(mode: Bytes)
  {
    LowerAll(mode) == NETASCII || LowerAll(mode) == OCTET
  }

  /** `m` spells the lower-case word `w` with each letter in either case. */
  predicate SpelledIgnoringCase(m: Bytes, w: Bytes)
  {
    && |m| == |w|
    && forall i :: 0 <= i < |w| ==> m[i] == w[i] || m[i] as int + 32 == w[i] as int
  }

  predicate LowerLetters(w: Bytes)
  {
    forall i :: 0 <= i < |w| ==> 'a' as int <= w[i] <= 'z' as int
  }

  lemma FoldsToWord(m: Bytes, w: Bytes)
    requires LowerLetters(w)
    ensures LowerAll(m) == w <==> SpelledIgnoringCase(m, w)
  {
    if SpelledIgnoringCase(m, w) {
      assert forall i :: 0 <= i < |w| ==> LowerAll(m)[i] == w[i];
    }
    if LowerAll(m) == w {
      forall i | 0 <= i < |w|
        ensures m[i] == w[i] || m[i] as int + 32 == w[i] as int
      {
        assert Lower(m[i]) == w[i];
      }
    }
  }

  /** The two accepted modes, stated letter by letter: a mode is accepted
      exactly when it is "netascii" or "octet" in any mix of cases. */
  lemma ModeSupportedIffSpelled(mode: Bytes)
    ensures ModeSupported(mode) <==>
      SpelledIgnoringCase(mode, NETASCII) || SpelledIgnoringCase(mode, OCTET)
  {
    FoldsToWord(mode, NETASCII);
    FoldsToWord(mode, OCTET);
  }

  /** `mode & mask` is non-zero, for a one-bit `mask`. */
  predicate HasBit(mode: nat, mask: nat)
    requires mask > 0
  {
    (mode / mask) % 2 == 1
  }

  /** The access test of tftpd.c:220-221: the read bit, or the write bit on a
      write request; the owner's bits under `-u`, the others' bits without. */
  predicate Permitted(op: u16, mode: nat, uparms: bool)
  {
    var rcheck := if uparms then S_IRUSR else S_IROTH;
    var wcheck := if uparms then S_IWUSR else S_IWOTH;
    HasBit(mode, rcheck) || (HasBit(mode, wcheck) && op == WRQ)
  }

  /** The octal permission digit the test looks at: the owner's under `-u`,
      the others' without. */
  function ClassDigit(mode: nat, uparms: bool): nat
  {
    if uparms then (mode / 64) % 8 else mode % 8
  }

  lemma BitsOfDigit(mode: nat, unit: nat, d: nat)
    requires unit == 1 || unit == 64
    requires d == (mode / unit) % 8
    ensures (mode / (unit * 4)) % 2 == d / 4
    ensures (mode / (unit * 2)) % 2 == (d / 2) % 2
  {
    var q := mode / unit;
    assert mode / (unit * 4) == q / 4;
    assert mode / (unit * 2) == q / 2;
    assert q == (q / 8) * 8 + d;
    assert q / 4 == (q / 8) * 2 + d / 4;
    assert q / 2 == (q / 8) * 4 + d / 2;
  }

  /** The permission decision in octal terms: a read request needs a class
      digit of at least 4 (r--), a write request a digit of at least 2
      (-w- or r--). */
  lemma PermittedByDigit(op: u16, mode: nat, uparms: bool)
    requires op == RRQ || op == WRQ
    ensures op == RRQ ==> (Permitted(op, mode, uparms) <==> ClassDigit(mode, uparms) >= 4)
    ensures op == WRQ ==> (Permitted(op, mode, uparms) <==> ClassDigit(mode, uparms) >= 2)
  {
    var unit := if uparms then 64 else 1;
    BitsOfDigit(mode, unit, ClassDigit(mode, uparms));
  }

  /** `snprintf(realPath, ..., "%s/%s", root, fileName)`. */
  function JoinPath(root: Bytes, name: Bytes): Bytes
  {
    root + ['/' as int] + name
  }

  /** The path a request names under the serving root. */
  function RequestPath(cfg: Config, p: Bytes): Bytes
    requires |p| >= 2
  {
    JoinPath(cfg.root, FileName(p))
  }

  /** `open` flags: write-only for WRQ, read-only for RRQ. */
  function FlagFor(op: u16): OpenFlag
  {
    if op == WRQ then WriteOnly else ReadOnly
  }

  /** How a request that got past the length check ends. */
  datatype Verdict =
    | UnsupportedMode                      // errored, nothing sent
    | Refused(code: u16, text: ErrText)    // ERROR sent, errored
    | OpenError(path: Bytes, text: ErrText) // open failed: ERROR sent, errored
    | Admitted(path: Bytes, fd: nat)       // ACK 0 sent

  /** A request is admitted, stated as one condition rather than as the
      source's chain of early exits. */
  predicate Admits(p: Bytes, cfg: Config, fs: Fs)
    requires RequestInBounds(p)
  {
    var op := Opcode(p);
    var path := RequestPath(cfg, p);
    var st := fs.stat(path);
    && ModeSupported(ModeField(p))
    && (op == RRQ ==> st.Found? && Permitted(op, st.mode, cfg.uparms))
    && (op == WRQ ==> st.NotFound? && Permitted(op, st.stale, cfg.uparms))
    && fs.open(path, FlagFor(op)).Opened?
  }

  /** The permission test and the `open` (tftpd.c:219-238). */
  function Admit(op: u16, path: Bytes, mode: nat, cfg: Config, fs: Fs): Verdict
  {
    if !Permitted(op, mode, cfg.uparms) then Refused(ERR_EACCESS, ACCESS_DENIED)
    else
      match fs.open(path, FlagFor(op))
      case OpenFailed(reason) => OpenError(path, reason)
      case Opened(fd) => Admitted(path, fd)
  }

  /** The mode check, `stat` and its error mapping, then `Admit`
      (tftpd.c:179-238). */
  function Decide(p: Bytes, cfg: Config, fs: Fs): (v: Verdict)
    requires RequestInBounds(p)
    requires Opcode(p) == RRQ || Opcode(p) == WRQ
    ensures v.UnsupportedMode? <==> !ModeSupported(ModeField(p))
    ensures v.Admitted? <==> Admits(p, cfg, fs)
    ensures v.Admitted? ==> v.path == RequestPath(cfg, p)
    ensures v.Refused? ==> v.code == ERR_ENOENT || v.code == ERR_EACCESS || v.code == ERR_EEXISTS
    ensures ModeSupported(ModeField(p)) ==>
      var st := fs.stat(RequestPath(cfg, p));
      && (st.StatFailed? ==> v == Refused(ERR_EACCESS, STAT_FAILED))
      && (st.NotFound? && Opcode(p) == RRQ ==> v == Refused(ERR_ENOENT, NO_SUCH_FILE))
      && (st.Found? && Opcode(p) == WRQ ==> v == Refused(ERR_EEXISTS, FILE_EXISTS))
  {
    var op := Opcode(p);
    if !ModeSupported(ModeField(p)) then UnsupportedMode
    else
      var path := RequestPath(cfg, p);
      match fs.stat(path)
      case StatFailed => Refused(ERR_EACCESS, STAT_FAILED)
      case NotFound(stale) =>
        if op != WRQ then Refused(ERR_ENOENT, NO_SUCH_FILE) else Admit(op, path, stale, cfg, fs)
      case Found(mode) =>
        if op == WRQ then Refused(ERR_EEXISTS, FILE_EXISTS) else Admit(op, path, mode, cfg, fs)
  }

  /** The last two rows of the handshake: a request whose `stat` outcome
      fits its opcode is refused with "Access denied" when the permission
      test fails, and otherwise ends in an open error carrying the system's
      reason when `open` fails. */
  lemma DecideAfterStat(p: Bytes, cfg: Config, fs: Fs)
    requires RequestInBounds(p)
    requires Opcode(p) == RRQ || Opcode(p) == WRQ
    requires ModeSupported(ModeField(p))
    ensures var path := RequestPath(cfg, p);
      var st := fs.stat(path);
      var op := Opcode(p);
      var bits := if st.Found? then st.mode else if st.NotFound? then st.stale else 0;
      (op == RRQ && st.Found?) || (op == WRQ && st.NotFound?) ==>
        && (!Permitted(op, bits, cfg.uparms) ==> Decide(p, cfg, fs) == Refused(ERR_EACCESS, ACCESS_DENIED))
        && (Permitted(op, bits, cfg.uparms) && fs.open(path, FlagFor(op)).OpenFailed? ==>
              Decide(p, cfg, fs) == OpenError(path, fs.open(path, FlagFor(op)).reason))
  {
  }

  /** The session change and reply a verdict brings; replies go to the
      request's sender. */
  function Apply(s: Session, v: Verdict, from: Endpoint): (r: (Session, seq<Datagram>))
    ensures r.0.peer == s.peer && r.0.lastSent == s.lastSent
    ensures r.0.acked == s.acked && r.0.done == s.done
    ensures |r.1| <= 1 && forall d :: d in r.1 ==> d.peer == from
    ensures r.1 == [] <==> v.UnsupportedMode?
    ensures v.Admitted? ==>
      && r.1 == [Datagram(from, EncodeAck(0))]
      && r.0.block == Inc16(s.block) && r.0.errored == s.errored
      && r.0.file == v.path && r.0.fd == v.fd
    ensures !v.Admitted? ==> r.0.errored && r.0.block == s.block
    ensures v.OpenError? ==> r.0.fd == -1 && r.0.file == v.path
  {
    match v
    case UnsupportedMode => (s.(errored := true), [])
    case Refused(code, text) => (s.(errored := true), [Datagram(from, EncodeError(code, text))])
    case OpenError(path, text) =>
      (s.(file := path, fd := -1, errored := true), [Datagram(from, EncodeError(ERR_ENOENT, text))])
    case Admitted(path, fd) =>
      (s.(file := path, fd := fd, block := Inc16(s.block)), [Datagram(from, EncodeAck(0))])
  }

  /** An RRQ or WRQ from `from` arriving for session `s`. */
  function OnRequest(s: Session, p: Bytes, from: Endpoint, cfg: Config, fs: Fs): (r: (Session, seq<Datagram>))
    requires |p| >= 2 && (Opcode(p) == RRQ || Opcode(p) == WRQ)
    requires |p| >= 4 ==> RequestInBounds(p)
    ensures |p| < 4 ==> r == (s, [])
    ensures |p| >= 4 && !ModeSupported(ModeField(p)) ==> r == (s.(errored := true), [])
    ensures r.0.peer == s.peer && r.0.lastSent == s.lastSent
    ensures r.0.acked == s.acked && r.0.done == s.done
    ensures |r.1| <= 1 && forall d :: d in r.1 ==> d.peer == from
    ensures r.1 == [Datagram(from, EncodeAck(0))] <==> |p| >= 4 && Admits(p, cfg, fs)
    ensures |p| >= 4 && Admits(p, cfg, fs) ==>
      && r.0.block == Inc16(s.block)
      && r.0.errored == s.errored
      && r.0.file == RequestPath(cfg, p)
      && r.0.fd == fs.open(RequestPath(cfg, p), FlagFor(Opcode(p))).fd
    ensures |p| >= 4 && !Admits(p, cfg, fs) ==> r.0.errored && r.0.block == s.block
  {
    if |p| < 4 then (s, [])
    else Apply(s, Decide(p, cfg, fs), from)
  }

  /** The replies of the failure paths: a refusal sends its code and text
      and changes nothing but `errored`; a failed `open` sends error 1 with
      the system's reason, records the path and leaves the descriptor at -1. */
  lemma FailedHandshakeReplies(s: Session, p: Bytes, from: Endpoint, cfg: Config, fs: Fs)
    requires RequestInBounds(p) && (Opcode(p) == RRQ || Opcode(p) == WRQ)
    ensures var v := Decide(p, cfg, fs);
      var r := OnRequest(s, p, from, cfg, fs);
      && (v.Refused? ==> r == (s.(errored := true), [Datagram(from, EncodeError(v.code, v.text))]))
      && (v.OpenError? ==>
            r == (s.(file := RequestPath(cfg, p), fd := -1, errored := true),
                  [Datagram(from, EncodeError(ERR_ENOENT, v.text))]))
  {
  }

  /** Every reply to a request is an ACK of block 0 or an ERROR packet a
      peer reads back as code 1, 2 or 6; exactly one of the two happens when
      anything is sent. */
  lemma RequestRepliesDecode(s: Session, p: Bytes, from: Endpoint, cfg: Config, fs: Fs)
    requires |p| >= 2 && (Opcode(p) == RRQ || Opcode(p) == WRQ)
    requires |p| >= 4 ==> RequestInBounds(p)
    ensures var r := OnRequest(s, p, from, cfg, fs);
      forall d :: d in r.1 ==>
        || (d.payload == EncodeAck(0) && r.0.errored == s.errored && r.0.block == Inc16(s.block))
        || (var e := ParseError(d.payload);
            && e.Some?
            && (e.value.0 == ERR_ENOENT || e.value.0 == ERR_EACCESS || e.value.0 == ERR_EEXISTS)
            && r.0.errored && r.0.block == s.block)
  {
    if |p| >= 4 {
      var v := Decide(p, cfg, fs);
      match v
      case Refused(code, text) => ErrorRoundTrip(code, text);
      case OpenError(path, text) => ErrorRoundTrip(ERR_ENOENT, text);
      case Admitted(path, fd) =>
      case UnsupportedMode =>
    }
  }
}

=== FILE: sessions.dfy ===
/** The per-client record (`tftpd_state_t`, tftpd.c:52-63), the datagrams the
    engine exchanges, and the outside world it consults: the daemon's options
    and the outcomes of the filesystem calls, which are inputs here rather
    than effects. */
module Sessions {
  import opened Bytes
  import opened Wire

  /** An IPv4 address (`in_addr_t`). */
  type u32 = x: int | 0 <= x < 0x1_0000_0000

  /** A `struct sockaddr_in`: address and UDP port. */
  datatype Endpoint = Endpoint(ip: u32, port: u16)

  /** A UDP datagram to (outbound) or from (inbound) `peer`. */
  datatype Datagram = Datagram(peer: Endpoint, payload: Bytes)

  /** One client. The list link `next` is replaced by the position of the
      session in a `seq<Session>`; `lastSent` is in milliseconds. */
  datatype Session = Session(
    peer: Endpoint,
    file: Bytes,
    fd: int,
    block: u16,
    acked: bool,
    lastSent: int,
    done: bool,
    errored: bool)

  /** What `calloc` plus `client->addr = fromaddr` yields. */
  function Fresh(peer: Endpoint): Session
  {
    Session(peer, [], 0, 0, false, 0, false, false)
  }

  /** The reaping condition: finished and acknowledged, or failed. */
  predicate Reapable(s: Session)
  {
    (s.done && s.acked) || s.errored
  }

  /** `RETRY_PERIOD` (0.5 s) in milliseconds. */
  const RETRY_PERIOD_MS: int := 500

  /** The options the engine reads: the serving root and the `-u` flag. */
  datatype Config = Config(root: Bytes, uparms: bool)

  /** What `stat` reports. `NotFound` carries the `st_mode` the never-filled
      `struct stat` happens to hold, which the permission check still reads
      for a write request. */
  datatype StatOutcome = Found(mode: nat) | NotFound(stale: nat) | StatFailed

  /** `O_RDONLY` or `O_WRONLY` (no `O_CREAT`). */
  datatype OpenFlag = ReadOnly | WriteOnly

  /** What `open` returns: a descriptor, or failure with `strerror(errno)`. */
  datatype OpenOutcome = Opened(fd: nat) | OpenFailed(reason: ErrText)

  /** The filesystem as the engine observes it: `stat` of a path, `open` of
      a path with a flag, and the (at most one block of) bytes a `read`
      returns after seeking descriptor `fd` to an offset. */
  datatype Fs = Fs(
    stat: Bytes -> StatOutcome,
    open: (Bytes, OpenFlag) -> OpenOutcome,
    read: (int, int) -> Chunk)
}

=== FILE: wire.dfy ===
/** The TFTP packet formats of RFC 1350 section 5 as the daemon writes and
    reads them (tftpd.c: the opcode read, the ACK read, `_send_ack`,
    `_send_error_resp` and the DATA header), together with the peer's side of
    each format, against which the round trips are stated. */
module Wire {
  import opened Bytes
  import opened Optional

  /* Opcodes. */
  const RRQ: u16 := 1
  const WRQ: u16 := 2
  const DATA: u16 := 3
  const ACK: u16 := 4
  const ERR: u16 := 5

  /* Error codes carried by ERROR packets. */
  const ERR_ND: u16 := 0
  const ERR_ENOENT: u16 := 1
  const ERR_EACCESS: u16 := 2
  const ERR_ENOSPACE: u16 := 3
  const ERR_EBADTRANS: u16 := 5
  const ERR_EEXISTS: u16 := 6
  const ERR_ENOUSER: u16 := 7

  /** Payload size of a full DATA block. */
  const BLOCK_SIZE: nat := 512

  /** Size of the buffer `_send_error_resp` assembles an ERROR packet in. */
  const ERROR_BUF: nat := 4096

  /** Room for the message text after the 4-byte header: the `strncpy` bound. */
  const MAX_ERROR_TEXT: nat := ERROR_BUF - 4

  /** What one `read` of at most one block returns. */
  type Chunk = c: Bytes | |c| <= BLOCK_SIZE

  /** A message `_send_error_resp` can send whole: a C string (no NUL inside)
      whose terminator still fits the buffer. */
  type ErrText = m: Bytes | 0 !in m && |m| < MAX_ERROR_TEXT

  /** The opcode at the head of a datagram (`ntohs(*(uint16_t*)buf)`). */
  function Opcode(p: Bytes): (r: u16)
    requires |p| >= 2
    ensures r == p[0] as int * 0x100 + p[1] as int
  {
    ReadBE16(p, 0)
  }

  /** The block field of an ACK (`ntohs(ack->block)`). */
  function AckBlock(p: Bytes): (r: u16)
    requires |p| >= 4
    ensures r == p[2] as int * 0x100 + p[3] as int
  {
    ReadBE16(p, 2)
  }

  /** The datagram `_send_ack` sends. */
  function EncodeAck(block: u16): (r: Bytes)
    ensures r == [0, ACK, block / 0x100, block % 0x100]
  {
    BE16(ACK) + BE16(block)
  }

  /** Reading an encoded ACK back recovers opcode 4 and the block. */
  lemma AckRoundTrip(block: u16)
    ensures |EncodeAck(block)| == 4
    ensures Opcode(EncodeAck(block)) == ACK
    ensures AckBlock(EncodeAck(block)) == block
  {
    ReadBE16OfBE16(ACK, [], BE16(block));
    assert [] + BE16(ACK) + BE16(block) == EncodeAck(block);
    ReadBE16OfBE16(block, BE16(ACK), []);
    assert BE16(ACK) + BE16(block) + [] == EncodeAck(block);
  }

  /** The datagram `_send_error_resp` sends: header, message, terminator. */
  function EncodeError(code: u16, msg: ErrText): (r: Bytes)
    ensures |r| == 4 + |msg| + 1
    ensures r[..4] == [0, ERR, code / 0x100, code % 0x100]
    ensures r[4..|r| - 1] == msg
    ensures r[|r| - 1] == 0
  {
    BE16(ERR) + BE16(code) + msg + [0]
  }

  /** How a peer reads an ERROR packet: opcode 5, a code, then a
      NUL-terminated message inside the datagram. */
  function ParseError(p: Bytes): Option<(u16, Bytes)>
  {
    if |p| < 5 || Opcode(p) != ERR then None
    else
      var m := UntilNul(p[4..]);
      if |m| < |p| - 4 then Some((ReadBE16(p, 2), m)) else None
  }

  /** An ERROR packet the daemon sends reads back as its code and message. */
  lemma ErrorRoundTrip(code: u16, msg: ErrText)
    ensures ParseError(EncodeError(code, msg)) == Some((code, msg))
  {
    var p := EncodeError(code, msg);
    assert p == BE16(ERR) + BE16(code) + msg + [0];
    ReadBE16OfBE16(ERR, [], BE16(code) + msg + [0]);
    assert [] + BE16(ERR) + (BE16(code) + msg + [0]) == p;
    ReadBE16OfBE16(code, BE16(ERR), msg + [0]);
    assert BE16(ERR) + BE16(code) + (msg + [0]) == p;
    assert p[4..] == msg + [0] + [];
    UntilNulOfTerminated(msg, []);
  }

  /** The datagram the outbound tick sends: header then payload. */
  function EncodeData(block: u16, payload: Chunk): (r: Bytes)
    ensures |r| == 4 + |payload|
    ensures r[..4] == [0, DATA, block / 0x100, block % 0x100]
    ensures r[4..] == payload
  {
    BE16(DATA) + BE16(block) + payload
  }

  /** The block field of a DATA packet, as a peer reads it. */
  function DataBlock(p: Bytes): u16
    requires |p| >= 4
  {
    ReadBE16(p, 2)
  }

  /** A DATA packet reads back as opcode 3, its block and its payload, and
      it is shorter than a full block's packet exactly when the payload is
      short, which RFC 1350 section 6 reads as the end of the transfer. */
  lemma DataRoundTrip(block: u16, payload: Chunk)
    ensures Opcode(EncodeData(block, payload)) == DATA
    ensures DataBlock(EncodeData(block, payload)) == block
    ensures EncodeData(block, payload)[4..] == payload
    ensures |EncodeData(block, payload)| < 4 + BLOCK_SIZE <==> |payload| < BLOCK_SIZE
  {
    var p := EncodeData(block, payload);
    ReadBE16OfBE16(DATA, [], BE16(block) + payload);
    assert [] + BE16(DATA) + (BE16(block) + payload) == p;
    ReadBE16OfBE16(block, BE16(DATA), payload);
  }

  /** A peer's RRQ or WRQ: opcode, filename, NUL, mode, NUL. */
  function EncodeRequest(op: u16, name: Bytes, mode: Bytes): (r: Bytes)
    requires op == RRQ || op == WRQ
    requires 0 !in name && 0 !in mode
    ensures |r| == 2 + |name| + 1 + |mode| + 1
    ensures r[2 + |name|] == 0 && r[|r| - 1] == 0
  {
    BE16(op) + name + [0] + mode + [0]
  }
}
